=== FILE: README.md ===
# SmartStock inventory store — a Dafny model

SmartStock Pro is a single-page inventory screen. Its logic sits in `App.tsx`: an in-memory
store of products and an audit history (newest entry first), the handlers that change them
(stock entry or exit, delete, create or edit through the product form), and the read-side
views over them (the filtered and sorted product table, the alert badge and the dashboard
alert counter, the sort buttons, and the CSV export text).

This project models that logic in Dafny:

- `wrappers.dfy` — `Option`, standing for a JavaScript property that may be `undefined`.
- `text.dfy` — ASCII `toLowerCase`, `includes`, JavaScript `<` on strings, `join` and `split`.
- `lists.dfy` — `Array.prototype.filter` and its laws.
- `model.dfy` — the product, log and form records, the seed products, the signed change,
  the clamped restock, the log entry, `products.find`, the alert test, the form overlay
  and the new-product record.
- `store.dfy` — class `Store` with `products` and `history` fields and one method per
  event (`LogAction`, `StockUpdate`, `Delete`, `Save`).
- `table.dfy` — filters, comparator, sort, toggle rule, alert count.
- `csv.dfy` — the export text and a reader that recovers the records from it.
- `scenarios.dfy` — worked examples on the seed data.

A product holds exactly what the screen can store: the create path spreads a partial form
into the record, so every field the form can leave out (`category`, `minStock`, `unitPrice`,
`siteId`, …) is an `Option`. Prices are integer cents. Random ids, clock readings and the
answer to the delete confirmation are arguments.

Points where `App.tsx` behaves in ways a reader might not expect, all kept as the code has them:

- Nothing in `App.tsx` calls `handleStockUpdate` (App.tsx:138-148). The movement modal's state
  (App.tsx:37-38) is declared but no modal is rendered. The movement results below
  (`Inventory.Store.StockUpdate` and the movement scenarios) describe the handler itself, not a
  flow a user of this screen can start.

- The logged `finalStock` is the unclamped `currentStock + change` (App.tsx:132), while the
  stored stock is clamped at 0 (App.tsx:144). The two differ on every overdraw.
- The sign of a movement comes from the `'entry'`/`'exit'` tag applied to `|amount|`
  (App.tsx:141), whatever the sign of `amount`.
- A movement touches a product only when its id and its `siteId` both match (App.tsx:140).
  The seed products have no `siteId` (constants.ts:4-70), so a movement never touches them
  (`Scenarios.SeedIgnoresMovements`).
- Creating a product writes no log entry (App.tsx:406). Sorting by name compares raw strings
  with `<`, so it is case-sensitive (App.tsx:88-89).
- The log tags written are `entry`/`exit`. The declared union (types.ts:19) lacks them, so
  `LogType` holds both sets.

## Model

| member | source | states |
|---|---|---|
| `Model.SignedChange` | App.tsx:141 | the change has the magnitude of `amount`; it is non-negative for an entry and non-positive for an exit |
| `Model.Restocked` | App.tsx:144 | stored stock is `stock + change` when that is not negative and 0 otherwise; the date becomes `now`; no other field changes |
| `Model.ActionLog` | App.tsx:125-133 | the entry carries the given log id, date, type and option fields and no reason, the product's id and current name and the amount, with final stock = old stock + amount, unclamped |
| `Model.Find` | App.tsx:123 | the result is the first product of the list with that id; absent exactly when no product has the id |
| `Model.FindUnique` | App.tsx:123 | with unique ids, `find` returns the one product carrying the id |
| `Model.Overlay` | App.tsx:405 | the edit keeps the id; every field the form sets (name, stock, date and each optional field) takes the form's value, every field it leaves out keeps the product's |
| `Model.OverlayNoChanges` | App.tsx:405 | a form that sets nothing leaves the product unchanged |
| `Model.OverlayFullForm` | App.tsx:405 | a form filled from a product with every field set replaces every field but the id |
| `Model.EditForm` | App.tsx:237 | the form seeded from a product; `Model.OverlayEditForm` states that saving it unchanged gives the product back |
| `Model.BlankForm` | App.tsx:193 | the new-article form (currency `$`, site S1); `Scenarios.CreateFromBlankForm` states what creating from it yields |
| `Model.InAlert` | App.tsx:220 | the alert test `currentStock <= minStock`, false without a threshold; `Table.AlertCount` and `Table.DashboardMatchesTable` state the count and badges built on it |
| `Model.OverlayEditForm` | App.tsx:237 | saving the edit form of a product unchanged gives back that product |
| `Model.NewProduct` | App.tsx:406 | the created product has the new id, date `now`, the form's stock or 0, and every other field (name, site, category, threshold, need, unit, price, currency, supplier) from the form |
| `Model.InitialProducts` | constants.ts:4-70 | five seed products with distinct ids |
| `Inventory.IsTarget` | App.tsx:140 | id and site both match; `Inventory.TargetIsTheMatch` states the target is such a product |
| `Inventory.Target` | App.tsx:123-140 | a target, when there is one, is a product of the list that matches both id and site |
| `Inventory.TargetIsTheMatch` | App.tsx:139-140 | with unique ids, a movement's target exists exactly when some product matches both id and site, and it is that product |
| `Inventory.MovementLog` | App.tsx:141-142 | a movement's log has the given id and date, the movement tag, the signed change, final stock old + change, origin site, responsible `Admin` and no reason |
| `Inventory.LoggedVersusStored` | App.tsx:132 | stored stock = max(0, logged final stock); the two differ exactly when the logged value is negative |
| `Inventory.Without` | App.tsx:111 | a product remains exactly when it was there and its id differs from the deleted one |
| `Inventory.FilterKeepsUnique` | App.tsx:111 | removing products keeps ids unique |
| `Inventory.WithoutAbsent` | App.tsx:111 | deleting an id no product has changes nothing |
| `Inventory.WithoutPresent` | App.tsx:111 | deleting the id of product k removes exactly position k and keeps the others in order |
| `Inventory.Store.constructor` | App.tsx:51-52 | a store built from loaded lists holds them; the loaded products must already have unique ids |
| `Inventory.Store.Seeded` | App.tsx:51-52 | with nothing saved, the store holds the seed products and an empty history |
| `Inventory.Store.LogAction` | App.tsx:122-136 | one entry goes to the front of the history for the first product with the id; nothing happens when none has it |
| `Inventory.Store.StockUpdate` | App.tsx:138-148 | the product matching id and site gets stock max(0, old + change); all others stay unchanged and in place; exactly one log is prepended when a product matched, none otherwise; ids stay unique; non-negative stock is kept |
| `Inventory.Store.Delete` | App.tsx:109-114 | once confirmed, the products with the id are removed and the rest keep their order; history is untouched |
| `Inventory.Store.Save` | App.tsx:403-406 | edit overlays the form only on the product with the edited id; create appends one product at the end; history untouched; ids stay unique |
| `Table.Filtered` | App.tsx:72-77 | a product is shown exactly when its lower-cased name contains the lower-cased term, the site filter is `all` or its site, and the category filter is `Toutes` or its category |
| `Table.Visible` | App.tsx:73-76 | the three tests combined; `Table.Filtered` states it decides what is shown |
| `Table.MatchesSearch` | App.tsx:73 | lower-cased name includes lower-cased term; `Table.SearchIgnoresCase` states the case independence |
| `Table.MatchesSite` | App.tsx:74 | `all` or the product's site; `Table.FilterOrderIrrelevant` states it composes with the others |
| `Table.MatchesCategory` | App.tsx:75 | `Toutes` or the product's category; `Table.DefaultQueryShowsAll` states the default passes everything |
| `Table.DefaultQueryShowsAll` | App.tsx:42-44 | the empty term with the default filters keeps every product, in order |
| `Table.SearchIgnoresCase` | App.tsx:73 | lower-casing the term or the name does not change what is shown |
| `Table.FilterOrderIrrelevant` | App.tsx:72-77 | applying the site, category and search filters one after another, in either order, gives the table's filter |
| `Table.KeyOf` | App.tsx:81-86 | the value each sort key reads; `Table.MissingKeyTiesWithAll` states what a missing price or category does |
| `Table.Below` | App.tsx:88-89 | JavaScript `<` on sort values; `Table.BelowTransitive` and `Table.BelowAsymmetric` state it is a strict order |
| `Table.BelowTransitive` | App.tsx:88-89 | `<` on sort values is transitive |
| `Table.BelowAsymmetric` | App.tsx:88-89 | `<` on sort values is asymmetric |
| `Table.Compare` | App.tsx:79-91 | the comparator; `Table.CompareAntisymmetric`, `Table.CompareDescending` and `Table.CompareDecides` state its contract |
| `Table.CompareDescending` | App.tsx:88-89 | for every pair, descending order gives the negated ascending verdict |
| `Table.CompareAntisymmetric` | App.tsx:88-90 | the comparator is antisymmetric and breaks no ties: equal key values compare 0 |
| `Table.MissingKeyTiesWithAll` | App.tsx:88-90 | a product lacking the sort key compares 0 with every product |
| `Table.CompareDecides` | App.tsx:88-90 | on present keys a result of at most 0 lets the first product precede, a positive one the second |
| `Table.Insert` | App.tsx:79 | inserting adds exactly one element to the multiset |
| `Table.SortRows` | App.tsx:79-91 | the sorted rows are a permutation of the input |
| `Table.Rows` | App.tsx:71-92 | the table is a permutation of the filtered products and shows exactly the visible products |
| `Table.InsertOrdered` | App.tsx:79-91 | insertion into an ordered list stays ordered |
| `Table.SortRowsOrdered` | App.tsx:79-91 | with every key present, the rows are non-decreasing by the key for `asc` and non-increasing for `desc` |
| `Table.RowsOrdered` | App.tsx:71-92 | sorting by name or stock always orders the table, as does any key all visible products have |
| `Table.OpeningTable` | App.tsx:45 | with the opening controls (empty search, all sites, all categories, name ascending) the table is every product, a permutation of the store, in ascending order of name |
| `Table.RowsByStock` | App.tsx:83 | by stock, ascending means stock never decreases down the table and descending means it never increases |
| `Table.NextSort` | App.tsx:153 | a click sets the key to the button's key |
| `Table.ToggleRule` | App.tsx:153 | clicking the active key twice restores the order, once always changes it; a new key starts ascending |
| `Table.AlertCount` | App.tsx:340 | the count equals the number of products in alert, counted one product at a time (`AlertsAmong`); it is at most the number of products and 0 exactly when none is in alert |
| `Table.FilterCountsAlerts` | App.tsx:340 | filtering on the alert test keeps exactly one product per alert |
| `Table.DashboardMatchesTable` | App.tsx:220 | with the default filters, the dashboard count equals the number of alert badges in the table, for any sort |
| `Text.Lower` | App.tsx:73 | same length; each capital A-Z becomes its small letter and every other character stays |
| `Text.Contains` | App.tsx:73 | `includes`; `Text.ContainsAt` states it holds exactly when the term occurs at some position |
| `Text.Less` | App.tsx:88-89 | JavaScript `<` on strings; `Text.LessTransitive` and `Text.LessTotal` state it is a strict total order |
| `Text.LessTransitive` | App.tsx:88-89 | string `<` is transitive |
| `Text.LessTotal` | App.tsx:88-89 | of two different strings, one is `<` the other |
| `Text.ContainsAt` | App.tsx:73 | `includes` holds exactly when the term occurs at some position |
| `Text.LowerIdempotent` | App.tsx:73 | lower-casing twice is lower-casing once |
| `Csv.CsvContent` | App.tsx:95-98 | an empty list exports nothing; otherwise the text starts with the data-URI prefix |
| `Csv.LineRoundTrip` | App.tsx:97 | a record's line holds no newline; split on commas it is the record's values each wrapped in double quotes, and dropping the quotes gives the values back |
| `Csv.Line` | App.tsx:97 | one record's values joined by commas; its contract is stated by `Csv.LineRoundTrip` |
| `Csv.Header` | App.tsx:96 | the first record's keys joined by commas; `Csv.ReadBack` and `Csv.CsvRoundTrip` state that the reader recovers them |
| `Csv.ReadBack` | App.tsx:98 | a header line and value lines without stray separators, joined by newlines, read back as that header and those rows |
| `Csv.CsvRoundTrip` | App.tsx:95-98 | after the prefix the text is the header and the record lines joined by newlines (`Csv.ContentLines`); reading it back gives the first record's keys as header and each record's own values, line by line |
| `Csv.OneRecordExport` | App.tsx:96-98 | a one-record list exports to exactly `data:text/csv;charset=utf-8,id,name\n"1","Bonbons"` |
| `Scenarios.ExitBelowZero` | App.tsx:138-148 | an exit of 100 on product '2' (stock 8) at its site stores 0 and logs change -100 with final stock -92 |
| `Scenarios.SeedIgnoresMovements` | App.tsx:140 | a movement on the seed store changes neither products nor history |
| `Scenarios.DeleteKeepsHistory` | App.tsx:111 | deleting product '3' leaves ids 1, 2, 4, 5 and both of its log entries |
| `Scenarios.CreateFromBlankForm` | App.tsx:406 | a product created from the blank form has stock 0, site S1, currency `$`, no price and no threshold, so it is never in alert |
| `Scenarios.SeedAlerts` | App.tsx:340 | two seed products are in alert: 'Bonbons' and 'Biscuits' |
| `Scenarios.SearchBon` | App.tsx:73 | searching "BON" shows only 'Bonbons' among the seed products |
| `Scenarios.TwoRowsByStock` | App.tsx:83-89 | stock 8 sorts before stock 15 ascending and after it descending |

## Left out

- Persistence: loading from and saving to `localStorage` and the JSON fallbacks (App.tsx:48-63). The store is built from loaded lists or from the seed data.
- `services/geminiService.ts`: calls to an external generative-AI service.
- Random ids and timestamps (App.tsx:126-127, 144, 406) are arguments. A new product id must be fresh. Log ids are not checked for uniqueness.
- `Inventory.Store.constructor`: loaded data is assumed to have unique product ids. The code does not check this. With a shared id, a movement would update every product matching id and site (App.tsx:139-144) and log the first product with that id whatever its site (App.tsx:123).
- `Inventory.Store.StockUpdate`: one `now` argument gives both the log's `date` (App.tsx:127) and the product's `lastInventoryDate` (App.tsx:144). The code reads the clock twice, so the two can differ by the time between the calls.
- JavaScript numbers: `currentStock`, `minStock`, `monthlyNeed` (types.ts:6-8) and the movement `amount` (App.tsx:138) are `int`. Fractional quantities are lost. So is `NaN`: a `NaN` amount makes `Math.abs` give `NaN`, and `Math.max(0, NaN)` stores `NaN` as the stock (App.tsx:141-144).
- The dashboard's total value, a floating-point sum (App.tsx:344). Prices are integer cents; a `NaN` price from `parseFloat` (App.tsx:423) is not modelled.
- The download steps, `encodeURI`, toasts and timers, the login form, views and layout (App.tsx:65-68, 99-106, 250-440). `window.confirm` is the `confirmed` argument of `Delete`.
- The React behaviour of `logAction` running inside the `setProducts` updater (App.tsx:123, 139), including a second run of an updater. Each event is one atomic step that reads the products as they were before it.
- Sites, furniture, replenishment, refill and log archival: App.tsx only declares or loads the `sites` and `furniture` lists and has no code for the others.
- `Inventory.Store.Save`: requires a non-empty name in the form, because the page's `required` name input (App.tsx:413) blocks the submit otherwise. The form has no `id` field, because the edit form is seeded from the edited product (App.tsx:237) and the create path sets its own id.
- `Table.RowsOrdered`: proves the table ordered only when every visible product has the sort key. A product lacking a price or category compares equal to every product, and the resulting order depends on the sort implementation. Only the permutation is proved for it.
- `Table.SortRows`: models `Array.prototype.sort` as a stable insertion sort. Any stable sort with a consistent comparator gives the same result. The order of tied rows is not stated as a lemma.
- `Text.Lower`: ASCII only. `toLowerCase` maps all of Unicode. JavaScript `<` compares UTF-16 code units and the model compares characters; the two agree outside surrogate pairs.
- `Csv.CsvRoundTrip`: holds only for values and header keys without commas or newlines, and only when every record has at least one property (an empty record's line is empty and reads back as one empty field). The export does not escape either, nor embedded double quotes. Turning a product or log into its key/value text is not modelled: JavaScript property order, number formatting and `"undefined"` for a missing field.

=== FILE: csv.dfy ===
/**
 * The text of the CSV export: a data-URI prefix, the first record's keys as
 * the header, then one line per record with every value in double quotes.
 * A record is given as its properties in order, each a key and the value as
 * the page would render it in a template string.
 */
module Csv {
  import opened Wrappers
  import Text

  type Field = (string, string)
  type Record = seq<Field>

  const Prefix := "data:text/csv;charset=utf-8,"

  function Keys(r: Record): (ks: seq<string>)
    ensures |ks| == |r| && forall i :: 0 <= i < |r| ==> ks[i] == r[i].0
  {
    seq(|r|, i requires 0 <= i < |r| => r[i].0)
  }

  function Values(r: Record): (vs: seq<string>)
    ensures |vs| == |r| && forall i :: 0 <= i < |r| ==> vs[i] == r[i].1
  {
    seq(|r|, i requires 0 <= i < |r| => r[i].1)
  }

  function Quote(v: string): string {
    "\"" + v + "\""
  }

  function Header(r: Record): string {
    Text.Join(Keys(r), ",")
  }

  function QuotedValues(r: Record): (qs: seq<string>)
    ensures |qs| == |r| && forall i :: 0 <= i < |r| ==> qs[i] == "\"" + r[i].1 + "\""
  {
    seq(|r|, i requires 0 <= i < |r| => Quote(r[i].1))
  }

  function Line(r: Record): string {
    Text.Join(QuotedValues(r), ",")
  }

  function Lines(data: seq<Record>): seq<string> {
    seq(|data|, i requires 0 <= i < |data| => Line(data[i]))
  }

  /** The export's text; nothing at all for an empty list. */
  function CsvContent(data: seq<Record>): (r: Option<string>)
    ensures r.None? <==> |data| == 0
    ensures r.Some? ==> Text.StartsWith(r.value, Prefix)
  {
    if |data| == 0 then None
    else Some(Prefix + Header(data[0]) + "\n" + Text.Join(Lines(data), "\n"))
  }

  /** What a reader of the file gets back: a header and rows of fields. */
  datatype Sheet = Sheet(header: seq<string>, rows: seq<seq<string>>)

  function Unquote(v: string): string {
    if |v| >= 2 && v[0] == '"' && v[|v| - 1] == '"' then v[1..|v| - 1] else v
  }

  function UnquoteAll(vs: seq<string>): seq<string> {
    seq(|vs|, i requires 0 <= i < |vs| => Unquote(vs[i]))
  }

  /** A plain reader of the export: strip the prefix, split lines on newline and fields on comma, drop quotes. */
  function Parse(text: string): Option<Sheet> {
    if !Text.StartsWith(text, Prefix) then None
    else Some(ReadLines(Text.Split(text[|Prefix|..], '\n')))
  }

  function ReadLines(lines: seq<string>): Sheet
    requires |lines| >= 1
  {
    Sheet(Text.Split(lines[0], ','),
          seq(|lines| - 1, i requires 0 <= i < |lines| - 1 => UnquoteAll(Text.Split(lines[i + 1], ','))))
  }

  predicate Plain(s: string) {
    ',' !in s && '\n' !in s
  }

  /**
   * The records survive the export: a non-empty list whose records each have
   * a property, and whose header keys and values hold no comma or newline.
   */
  predicate Exportable(data: seq<Record>) {
    && |data| > 0
    && (forall i :: 0 <= i < |data| ==> |data[i]| > 0)
    && (forall j :: 0 <= j < |data[0]| ==> Plain(data[0][j].0))
    && (forall i, j :: 0 <= i < |data| && 0 <= j < |data[i]| ==> Plain(data[i][j].1))
  }

  lemma {:induction false} QuoteRoundTrip(v: string)
    ensures Unquote(Quote(v)) == v
    ensures Plain(v) ==> Plain(Quote(v))
  {
  }

  /** Splitting one export line on commas gives back its record's values. */
  lemma {:induction false} LineRoundTrip(r: Record)
    requires |r| > 0
    requires forall j :: 0 <= j < |r| ==> Plain(r[j].1)
    ensures '\n' !in Line(r)
    ensures Text.Split(Line(r), ',') == QuotedValues(r)
    ensures UnquoteAll(Text.Split(Line(r), ',')) == Values(r)
  {
    var qs := QuotedValues(r);
    forall j | 0 <= j < |qs| ensures Plain(qs[j]) {
      QuoteRoundTrip(r[j].1);
    }
    Text.JoinAvoids(qs, ",", '\n');
    Text.SplitJoin(qs, ',');
    forall j | 0 <= j < |r| ensures Unquote(qs[j]) == r[j].1 {
      QuoteRoundTrip(r[j].1);
    }
  }

  /** After the prefix, the export is the header and the record lines joined by newlines. */
  lemma {:induction false} ContentLines(data: seq<Record>)
    requires |data| > 0
    ensures CsvContent(data).value[|Prefix|..] == Text.Join([Header(data[0])] + Lines(data), "\n")
  {
    var all := [Header(data[0])] + Lines(data);
    assert all[1..] == Lines(data);
  }

  /**
   * Reading the export back gives the first record's keys as the header and,
   * line by line, each record's own values, in order.
   */
  lemma {:induction false} CsvRoundTrip(data: seq<Record>)
    requires Exportable(data)
    ensures Parse(CsvContent(data).value)
            == Some(Sheet(Keys(data[0]), seq(|data|, i requires 0 <= i < |data| => Values(data[i]))))
  {
    var rows := seq(|data|, i requires 0 <= i < |data| => Values(data[i]));
    ContentLines(data);
    forall i | 0 <= i < |data|
      ensures '\n' !in Lines(data)[i] && UnquoteAll(Text.Split(Lines(data)[i], ',')) == rows[i]
    {
      LineRoundTrip(data[i]);
    }
    ReadBack(Keys(data[0]), Lines(data), rows);
  }

  /** Reading back a header line and value lines that hold no stray separators. */
  lemma {:induction false} ReadBack(header: seq<string>, lines: seq<string>, rows: seq<seq<string>>)
    requires |header| >= 1 && forall j :: 0 <= j < |header| ==> Plain(header[j])
    requires |lines| == |rows|
    requires forall i :: 0 <= i < |lines| ==>
               '\n' !in lines[i] && UnquoteAll(Text.Split(lines[i], ',')) == rows[i]
    ensures ReadLines(Text.Split(Text.Join([Text.Join(header, ",")] + lines, "\n"), '\n')) == Sheet(header, rows)
  {
    var all := [Text.Join(header, ",")] + lines;
    Text.JoinAvoids(header, ",", '\n');
    forall i | 0 <= i < |all| ensures '\n' !in all[i] {
      if i > 0 {
        assert all[i] == lines[i - 1];
      }
    }
    Text.SplitJoin(all, '\n');
    Text.SplitJoin(header, ',');
    var sheet := ReadLines(all);
    forall i | 0 <= i < |rows| ensures sheet.rows[i] == rows[i] {
      assert all[i + 1] == lines[i];
    }
  }

  /** One product-like record exports to exactly this text. */
  lemma OneRecordExport()
    ensures CsvContent([[("id", "1"), ("name", "Bonbons")]])
            == Some("data:text/csv;charset=utf-8,id,name\n\"1\",\"Bonbons\"")
  {
    var r: Record := [("id", "1"), ("name", "Bonbons")];
    assert Keys(r) == ["id", "name"];
    assert Quote("1") == "\"1\"" && Quote("Bonbons") == "\"Bonbons\"";
    assert QuotedValues(r) == ["\"1\"", "\"Bonbons\""];
    assert Header(r) == "id,name";
    assert Line(r) == "\"1\",\"Bonbons\"";
    assert Text.Join(Lines([r]), "\n") == Line(r);
    assert CsvContent([r]) == Some(Prefix + "id,name" + "\n" + "\"1\",\"Bonbons\"");
    assert Prefix + "id,name" + "\n" + "\"1\",\"Bonbons\""
           == "data:text/csv;charset=utf-8,id,name\n\"1\",\"Bonbons\"";
  }
}

=== FILE: lists.dfy ===
/** `Array.prototype.filter` as a function on sequences, with the facts the table relies on. */
module Lists {

  /** The elements of `s` that satisfy `keep`, in their original order. */
  function Filter<T(!new)>(s: seq<T>, keep: T -> bool): (r: seq<T>)
    ensures |r| <= |s|
    decreases |s|
  {
    if |s| == 0 then []
    else (if keep(s[0]) then [s[0]] else []) + Filter(s[1..], keep)
  }

  /** An element is kept exactly when it occurs in the input and satisfies the predicate. */
  lemma {:induction false} FilterMembers<T(!new)>(s: seq<T>, keep: T -> bool)
    ensures forall x :: x in Filter(s, keep) <==> x in s && keep(x)
    decreases |s|
  {
    if |s| > 0 {
      FilterMembers(s[1..], keep);
      assert s == [s[0]] + s[1..];
    }
  }

  /** Filtering a concatenation filters each part: the order of the kept elements is the original order. */
  lemma {:induction false} FilterAppend<T(!new)>(a: seq<T>, b: seq<T>, keep: T -> bool)
    ensures Filter(a + b, keep) == Filter(a, keep) + Filter(b, keep)
    decreases |a|
  {
    if |a| > 0 {
      assert (a + b)[1..] == a[1..] + b;
      FilterAppend(a[1..], b, keep);
    } else {
      assert a + b == b;
    }
  }

  /** A filter that rejects nothing returns its input unchanged. */
  lemma {:induction false} FilterKeepsAll<T(!new)>(s: seq<T>, keep: T -> bool)
    requires forall i :: 0 <= i < |s| ==> keep(s[i])
    ensures Filter(s, keep) == s
    decreases |s|
  {
    if |s| > 0 {
      FilterKeepsAll(s[1..], keep);
      assert s == [s[0]] + s[1..];
    }
  }

  /** Filtering by one predicate and then another is filtering by their conjunction. */
  lemma {:induction false} FilterFilter<T(!new)>(s: seq<T>, f: T -> bool, g: T -> bool, both: T -> bool)
    requires forall x :: both(x) == (f(x) && g(x))
    ensures Filter(Filter(s, f), g) == Filter(s, both)
    decreases |s|
  {
    if |s| > 0 {
      FilterFilter(s[1..], f, g, both);
      var head := if f(s[0]) then [s[0]] else [];
      FilterAppend(head, Filter(s[1..], f), g);
      if f(s[0]) {
        assert Filter(head, g) == (if g(s[0]) then [s[0]] else []) by {
          assert head[1..] == [];
        }
      }
    }
  }

  /** A filter that keeps nothing returns the empty sequence. */
  lemma {:induction false} FilterKeepsNone<T(!new)>(s: seq<T>, keep: T -> bool)
    requires forall i :: 0 <= i < |s| ==> !keep(s[i])
    ensures Filter(s, keep) == []
    decreases |s|
  {
    if |s| > 0 {
      FilterKeepsNone(s[1..], keep);
    }
  }

  /** Filtering out exactly one element removes it and keeps the others in order. */
  lemma {:induction false} FilterDropsOne<T(!new)>(front: seq<T>, x: T, back: seq<T>, keep: T -> bool)
    requires forall i :: 0 <= i < |front| ==> keep(front[i])
    requires forall i :: 0 <= i < |back| ==> keep(back[i])
    requires !keep(x)
    ensures Filter(front + [x] + back, keep) == front + back
  {
    var rest := [x] + back;
    assert Filter(rest, keep) == back by {
      assert rest[1..] == back;
      FilterKeepsAll(back, keep);
    }
    assert Filter(front, keep) == front by {
      FilterKeepsAll(front, keep);
    }
    assert Filter(front + rest, keep) == Filter(front, keep) + Filter(rest, keep) by {
      FilterAppend(front, rest, keep);
    }
    assert front + [x] + back == front + rest;
  }
}

=== FILE: model.dfy ===
/**
 * The records held by the SmartStock inventory screen and the per-record
 * rules: a product, an audit-log entry, the product form, the seed data, the
 * signed stock change of a movement, the clamped restock and the alert test.
 *
 * A product is what the store can actually hold: the create path spreads a
 * partial form into the record, so every field that form can leave out is
 * optional here (`None` is JavaScript's `undefined`). Prices are integer cents.
 */
module Model {
  import opened Wrappers

  datatype Currency = Fc | Dollar

  datatype Product = Product(
    id: string,
    name: string,
    category: Option<string>,
    currentStock: int,
    minStock: Option<int>,
    monthlyNeed: Option<int>,
    unit: Option<string>,
    unitPrice: Option<int>,
    currency: Option<Currency>,
    supplier: Option<string>,
    lastInventoryDate: string,
    siteId: Option<string>)

  /** The product form's state: any subset of a product's fields except its id. */
  datatype ProductForm = ProductForm(
    name: Option<string>,
    category: Option<string>,
    currentStock: Option<int>,
    minStock: Option<int>,
    monthlyNeed: Option<int>,
    unit: Option<string>,
    unitPrice: Option<int>,
    currency: Option<Currency>,
    supplier: Option<string>,
    lastInventoryDate: Option<string>,
    siteId: Option<string>)

  /** The direction of a stock movement. */
  datatype Direction = Entry | Exit

  /** The tag of a log entry: the three declared kinds, and the movement tags the screen writes. */
  datatype LogType = ManualUpdate | Refill | InventoryCheck | Movement(direction: Direction)

  /** Extra fields a caller spreads into a log entry. */
  datatype LogOptions = LogOptions(fromSiteId: Option<string>, responsible: Option<string>)

  datatype Log = Log(
    id: string,
    date: string,
    logType: LogType,
    productId: string,
    productName: string,
    changeAmount: int,
    finalStock: int,
    reason: Option<string>,
    fromSiteId: Option<string>,
    responsible: Option<string>)

  function Abs(x: int): (r: int)
    ensures r >= 0 && (r == x || r == -x)
  {
    if x < 0 then -x else x
  }

  function Max(a: int, b: int): (r: int)
    ensures r >= a && r >= b && (r == a || r == b)
  {
    if a < b then b else a
  }

  /** The signed change of a movement: the magnitude of `amount`, positive for an entry, negative for an exit. */
  function SignedChange(direction: Direction, amount: int): (r: int)
    ensures Abs(r) == Abs(amount)
    ensures direction == Entry ==> r >= 0
    ensures direction == Exit ==> r <= 0
  {
    if direction == Entry then Abs(amount) else -Abs(amount)
  }

  /** The product after a movement of `change`: stock clamped at zero, inventory date refreshed. */
  function Restocked(p: Product, change: int, now: string): (q: Product)
    ensures q.currentStock >= 0
    ensures q.currentStock >= p.currentStock + change
    ensures p.currentStock + change >= 0 ==> q.currentStock == p.currentStock + change
    ensures p.currentStock + change < 0 ==> q.currentStock == 0
    ensures q.lastInventoryDate == now
    ensures q.(currentStock := p.currentStock, lastInventoryDate := p.lastInventoryDate) == p
  {
    p.(currentStock := Max(0, p.currentStock + change), lastInventoryDate := now)
  }

  /** The log entry written for a product found in the store, before any clamp. */
  function ActionLog(p: Product, amount: int, logType: LogType, options: LogOptions,
                     logId: string, now: string): (l: Log)
    ensures l.productId == p.id && l.productName == p.name
    ensures l.changeAmount == amount
    ensures l.finalStock - l.changeAmount == p.currentStock
    ensures l.id == logId && l.date == now && l.logType == logType
    ensures l.fromSiteId == options.fromSiteId && l.responsible == options.responsible
    ensures l.reason == None
  {
    Log(logId, now, logType, p.id, p.name, amount, p.currentStock + amount,
        None, options.fromSiteId, options.responsible)
  }

  /** Position `k` holds the first product with this id. */
  predicate FirstWithId(ps: seq<Product>, id: string, k: int) {
    0 <= k < |ps| && ps[k].id == id && forall j :: 0 <= j < k ==> ps[j].id != id
  }

  /** The first product with this id (`products.find`). */
  function Find(ps: seq<Product>, id: string): (r: Option<Product>)
    ensures r.Some? ==> r.value in ps && r.value.id == id
    ensures r.Some? ==> exists k :: FirstWithId(ps, id, k) && ps[k] == r.value
    ensures r.None? ==> forall i :: 0 <= i < |ps| ==> ps[i].id != id
    decreases |ps|
  {
    if |ps| == 0 then None
    else if ps[0].id == id then
      assert FirstWithId(ps, id, 0);
      Some(ps[0])
    else
      var r := Find(ps[1..], id);
      assert r.Some? ==> exists k :: FirstWithId(ps, id, k) && ps[k] == r.value by {
        if r.Some? {
          var k :| FirstWithId(ps[1..], id, k) && ps[1..][k] == r.value;
          assert FirstWithId(ps, id, k + 1);
        }
      }
      r
  }

  /** No two products share an id. */
  predicate UniqueIds(ps: seq<Product>) {
    forall i, j :: 0 <= i < j < |ps| ==> ps[i].id != ps[j].id
  }

  /** `id` is not yet used by any product. */
  predicate Fresh(ps: seq<Product>, id: string) {
    forall i :: 0 <= i < |ps| ==> ps[i].id != id
  }

  predicate NonNegativeStock(ps: seq<Product>) {
    forall i :: 0 <= i < |ps| ==> ps[i].currentStock >= 0
  }

  /** With unique ids, `Find` returns the one product that carries the id. */
  lemma {:induction false} FindUnique(ps: seq<Product>, k: nat)
    requires UniqueIds(ps) && k < |ps|
    ensures Find(ps, ps[k].id) == Some(ps[k])
    decreases |ps|
  {
    if k > 0 {
      assert ps[0].id != ps[k].id;
      assert UniqueIds(ps[1..]) by {
        forall i, j | 0 <= i < j < |ps| - 1 ensures ps[1..][i].id != ps[1..][j].id {
          assert ps[i + 1].id != ps[j + 1].id;
        }
      }
      FindUnique(ps[1..], k - 1);
    }
  }

  /**
   * The alert test shared by the table badge and the dashboard count: stock at
   * or below the threshold. A product without a threshold is never in alert
   * (JavaScript's `n <= undefined` is false).
   */
  predicate InAlert(p: Product) {
    p.minStock.Some? && p.currentStock <= p.minStock.value
  }

  /**
   * The edit save: the form's fields laid over the product (`{...p, ...formData}`).
   * Every field the form sets wins; every field it leaves out keeps the product's value.
   */
  function Overlay(p: Product, f: ProductForm): (q: Product)
    ensures q.id == p.id
    ensures f.name.Some? ==> q.name == f.name.value
    ensures f.name.None? ==> q.name == p.name
    ensures f.currentStock.Some? ==> q.currentStock == f.currentStock.value
    ensures f.currentStock.None? ==> q.currentStock == p.currentStock
    ensures f.lastInventoryDate.Some? ==> q.lastInventoryDate == f.lastInventoryDate.value
    ensures f.lastInventoryDate.None? ==> q.lastInventoryDate == p.lastInventoryDate
    ensures q.category == (if f.category.Some? then f.category else p.category)
    ensures q.minStock == (if f.minStock.Some? then f.minStock else p.minStock)
    ensures q.monthlyNeed == (if f.monthlyNeed.Some? then f.monthlyNeed else p.monthlyNeed)
    ensures q.unit == (if f.unit.Some? then f.unit else p.unit)
    ensures q.unitPrice == (if f.unitPrice.Some? then f.unitPrice else p.unitPrice)
    ensures q.currency == (if f.currency.Some? then f.currency else p.currency)
    ensures q.supplier == (if f.supplier.Some? then f.supplier else p.supplier)
    ensures q.siteId == (if f.siteId.Some? then f.siteId else p.siteId)
  {
    Product(p.id, f.name.GetOr(p.name), f.category.Or(p.category),
            f.currentStock.GetOr(p.currentStock), f.minStock.Or(p.minStock),
            f.monthlyNeed.Or(p.monthlyNeed), f.unit.Or(p.unit), f.unitPrice.Or(p.unitPrice),
            f.currency.Or(p.currency), f.supplier.Or(p.supplier),
            f.lastInventoryDate.GetOr(p.lastInventoryDate), f.siteId.Or(p.siteId))
  }

  /** The form opened by a row's edit button: every field of the product. */
  function EditForm(p: Product): ProductForm {
    ProductForm(Some(p.name), p.category, Some(p.currentStock), p.minStock, p.monthlyNeed,
                p.unit, p.unitPrice, p.currency, p.supplier, Some(p.lastInventoryDate), p.siteId)
  }

  /** The form opened by the new-article button: dollars, first site. */
  function BlankForm(): ProductForm {
    ProductForm(None, None, None, None, None, None, None, Some(Dollar), None, None, Some("S1"))
  }

  /** A form that sets no field. */
  const NoChanges := ProductForm(None, None, None, None, None, None, None, None, None, None, None)

  /** Saving a form that sets nothing leaves the product as it was. */
  lemma OverlayNoChanges(p: Product)
    ensures Overlay(p, NoChanges) == p
  {
  }

  /** Every optional field of the product is set. */
  predicate Complete(p: Product) {
    && p.category.Some? && p.minStock.Some? && p.monthlyNeed.Some? && p.unit.Some?
    && p.unitPrice.Some? && p.currency.Some? && p.supplier.Some? && p.siteId.Some?
  }

  /**
   * Saving a form filled from another product with every field set takes every
   * field from it except the id (a field that product lacks keeps `p`'s value).
   */
  lemma OverlayFullForm(p: Product, other: Product)
    requires Complete(other)
    ensures Overlay(p, EditForm(other)) == other.(id := p.id)
  {
  }

  /** Saving an edit form nobody changed gives back the product it was opened on. */
  lemma OverlayEditForm(p: Product)
    ensures Overlay(p, EditForm(p)) == p
  {
  }

  /** The create save: the form's fields, a new id and date, and the form's stock or 0. */
  function NewProduct(f: ProductForm, id: string, now: string): (q: Product)
    requires f.name.Some?
    ensures q.id == id && q.name == f.name.value && q.lastInventoryDate == now
    ensures q.currentStock == (if f.currentStock.Some? then f.currentStock.value else 0)
    ensures q.siteId == f.siteId && q.category == f.category && q.minStock == f.minStock
    ensures q.monthlyNeed == f.monthlyNeed && q.unit == f.unit && q.unitPrice == f.unitPrice
    ensures q.currency == f.currency && q.supplier == f.supplier
  {
    Product(id, f.name.value, f.category, f.currentStock.GetOr(0), f.minStock, f.monthlyNeed,
            f.unit, f.unitPrice, f.currency, f.supplier, now, f.siteId)
  }

  /** The five seed products loaded when storage holds none; none of them has a site. */
  function InitialProducts(now: string): (ps: seq<Product>)
    ensures |ps| == 5 && UniqueIds(ps)
  {
    [ Product("1", "Bonbons", Some("Alimentaire"), 15, Some(20), Some(20), Some("sacs"),
              Some(250), Some(Dollar), Some("Fournisseur A"), now, None),
      Product("2", "Biscuits", Some("Alimentaire"), 8, Some(15), Some(20), Some("paquets"),
              Some(300), Some(Dollar), Some("Fournisseur A"), now, None),
      Product("3", "Jus de fruit", Some("Boisson"), 12, Some(10), Some(15), Some("litres"),
              Some(450), Some(Dollar), Some("Fournisseur B"), now, None),
      Product("4", "Assiettes jetables", Some("Matériel"), 50, Some(30), Some(40), Some("unités"),
              Some(50), Some(Dollar), Some("Fournisseur C"), now, None),
      Product("5", "Nappes", Some("Décoration"), 10, Some(5), Some(8), Some("unités"),
              Some(1200), Some(Dollar), Some("Fournisseur D"), now, None) ]
  }
}

=== FILE: scenarios.dfy ===
/** Worked examples on the seed data, as a client of the store and the table sees them. */
module Scenarios {
  import opened Wrappers
  import opened Model
  import opened Inventory
  import Lists
  import Text
  import Table

  /** An exit of 100 on 'Biscuits' (stock 8) placed on site S1: stored stock 0, logged final stock -92. */
  method ExitBelowZero() returns (stored: int, logged: Log)
    ensures stored == 0
    ensures logged.logType == Movement(Exit) && logged.productId == "2" && logged.productName == "Biscuits"
    ensures logged.changeAmount == -100 && logged.finalStock == -92
  {
    var biscuits := InitialProducts("t0")[1].(siteId := Some("S1"));
    var store := new Store([biscuits], []);
    store.StockUpdate("2", 100, Exit, "S1", "log1", "t1");
    stored := store.products[0].currentStock;
    logged := store.history[0];
  }

  /** The seed products carry no site, so a movement on any of them changes nothing and logs nothing. */
  method SeedIgnoresMovements(now: string) returns (products: seq<Product>, history: seq<Log>)
    ensures products == InitialProducts(now) && history == []
  {
    var store := new Store.Seeded(now);
    store.StockUpdate("2", 5, Entry, "S1", "log1", "t1");
    products, history := store.products, store.history;
  }

  /** Deleting product '3' keeps the two entries already logged for it. */
  method DeleteKeepsHistory(now: string, logs: seq<Log>) returns (ids: seq<string>, history: seq<Log>)
    requires |logs| == 2 && forall i :: 0 <= i < 2 ==> logs[i].productId == "3"
    ensures ids == ["1", "2", "4", "5"] && history == logs
  {
    var store := new Store(InitialProducts(now), logs);
    store.Delete("3", true);
    SeedWithout3(now);
    var left := store.products;
    ids := [left[0].id, left[1].id, left[2].id, left[3].id];
    history := store.history;
  }

  /** Removing product '3' from the seed leaves the others, in order. */
  lemma SeedWithout3(now: string)
    ensures var left := Without(InitialProducts(now), "3");
            |left| == 4 && left[0].id == "1" && left[1].id == "2" && left[2].id == "4" && left[3].id == "5"
  {
    var seed := InitialProducts(now);
    WithoutPresent(seed, 2);
    var left := seed[..2] + seed[3..];
    assert left[0] == seed[0] && left[1] == seed[1] && left[2] == seed[3] && left[3] == seed[4];
  }

  /** A product created from the blank form gets stock 0, site S1, and no threshold, so it is never in alert. */
  method CreateFromBlankForm(now: string) returns (created: Product)
    ensures created.id == "k3x9" && created.name == "Gobelets"
    ensures created.currentStock == 0 && created.siteId == Some("S1") && !InAlert(created)
    ensures created.currency == Some(Dollar) && created.unitPrice == None
  {
    var store := new Store.Seeded(now);
    store.Save(None, BlankForm().(name := Some("Gobelets")), "k3x9", "t1");
    created := store.products[5];
  }

  /** Two of the seed products are in alert: 'Bonbons' (15 <= 20) and 'Biscuits' (8 <= 15). */
  lemma SeedAlerts(now: string)
    ensures Table.AlertCount(InitialProducts(now)) == 2
    ensures InAlert(InitialProducts(now)[0]) && InAlert(InitialProducts(now)[1])
  {
    var ps := InitialProducts(now);
    FirstTwoAlerts(ps);
  }

  /** Of five products, when exactly the first two are in alert, the alert filter keeps those two. */
  lemma FirstTwoAlerts(ps: seq<Product>)
    requires |ps| == 5 && InAlert(ps[0]) && InAlert(ps[1])
    requires !InAlert(ps[2]) && !InAlert(ps[3]) && !InAlert(ps[4])
    ensures Lists.Filter(ps, InAlert) == [ps[0], ps[1]]
  {
    var front, back := ps[..2], ps[2..];
    assert ps == front + back;
    Lists.FilterAppend(front, back, InAlert);
    Lists.FilterKeepsAll(front, InAlert);
    assert forall j :: 0 <= j < |back| ==> back[j] == ps[j + 2];
    Lists.FilterKeepsNone(back, InAlert);
  }

  /** A name without the letter 'o' cannot contain "bon". */
  lemma {:induction false} MissesBon(s: string)
    requires 'o' !in s
    ensures !Text.Contains(s, "bon")
  {
    Text.ContainsAt(s, "bon");
    forall i | 0 <= i <= |s| - 3 ensures !Text.OccursAt(s, "bon", i) {
      assert s[i + 1] in s;
      assert s[i..i + 3][1] == s[i + 1];
    }
  }

  /** None of the other seed names has an 'o' once lower-cased. */
  lemma OtherSeedNamesLackO()
    ensures 'o' !in Text.Lower("Biscuits") && 'o' !in Text.Lower("Jus de fruit")
    ensures 'o' !in Text.Lower("Assiettes jetables") && 'o' !in Text.Lower("Nappes")
  {
    LowerLacksO("Biscuits");
    LowerLacksO("Jus de fruit");
    LowerLacksO("Assiettes jetables");
    LowerLacksO("Nappes");
  }

  /** A string with neither 'o' nor 'O' has no 'o' once lower-cased. */
  lemma LowerLacksO(s: string)
    requires forall j :: 0 <= j < |s| ==> s[j] != 'o' && s[j] != 'O'
    ensures 'o' !in Text.Lower(s)
  {
    var r := Text.Lower(s);
    forall j | 0 <= j < |r| ensures r[j] != 'o' {
      assert r[j] == Text.LowerChar(s[j]);
    }
  }

  /** Searching "BON" matches 'Bonbons' whatever the case, and nothing else in the seed data. */
  lemma SearchBon(now: string)
    ensures Table.Filtered(InitialProducts(now), Table.Query("BON", "all", "Toutes")) == [InitialProducts(now)[0]]
  {
    var ps := InitialProducts(now);
    var q := Table.Query("BON", "all", "Toutes");
    assert Text.Lower("BON") == "bon";
    assert Table.Visible(ps[0], q) by {
      assert Text.Lower("Bonbons")[..3] == "bon";
    }
    OtherSeedNamesLackO();
    forall k | 1 <= k < 5 ensures !Table.Visible(ps[k], q) {
      MissesBon(Text.Lower(ps[k].name));
    }
    var keep := (p: Product) => Table.Visible(p, q);
    Lists.FilterAppend([ps[0]], ps[1..], keep);
    assert [ps[0]][1..] == [];
    assert ps == [ps[0]] + ps[1..];
    assert forall j :: 0 <= j < 4 ==> ps[1..][j] == ps[j + 1];
    Lists.FilterKeepsNone(ps[1..], keep);
  }

  /** Sorting by stock puts the lower stock first when ascending and last when descending. */
  lemma TwoRowsByStock(a: Product, b: Product)
    requires a.currentStock == 8 && b.currentStock == 15
    ensures Table.SortRows([b, a], Table.SortConfig(Table.Stock, Table.Asc)) == [a, b]
    ensures Table.SortRows([a, b], Table.SortConfig(Table.Stock, Table.Desc)) == [b, a]
  {
    assert Table.Compare(b, a, Table.SortConfig(Table.Stock, Table.Asc)) == 1;
    SwapTwo(b, a, Table.SortConfig(Table.Stock, Table.Asc));
    assert Table.Compare(a, b, Table.SortConfig(Table.Stock, Table.Desc)) == 1;
    SwapTwo(a, b, Table.SortConfig(Table.Stock, Table.Desc));
  }

  /** Two rows the comparator puts the other way round come out swapped. */
  lemma SwapTwo(x: Product, y: Product, cfg: Table.SortConfig)
    requires Table.Compare(x, y, cfg) > 0
    ensures Table.SortRows([x, y], cfg) == [y, x]
  {
    assert [x, y][1..] == [y] && [y][1..] == [];
    assert Table.SortRows([y], cfg) == [y];
    assert Table.Insert(x, [y], cfg) == [y] + Table.Insert(x, [], cfg);
  }
}

=== FILE: store.dfy ===
/**
 * The inventory store: the live product list and the audit history, changed
 * one user event at a time. Each event is one atomic step; ids and dates
 * that the screen draws from `Math.random` and the clock arrive as arguments.
 */
module Inventory {
  import opened Wrappers
  import opened Model
  import Lists

  /** A movement applies to a product only when both its id and its site match. */
  predicate IsTarget(p: Product, productId: string, siteId: string) {
    p.id == productId && p.siteId == Some(siteId)
  }

  /** The product a movement applies to, if any: the product with the id, when it is on the site. */
  function Target(ps: seq<Product>, productId: string, siteId: string): (r: Option<Product>)
    ensures r.Some? ==> r.value in ps && IsTarget(r.value, productId, siteId)
  {
    match Find(ps, productId)
    case Some(p) => if p.siteId == Some(siteId) then Some(p) else None
    case None => None
  }

  /** With unique ids, `Target` finds exactly the products a movement applies to. */
  lemma {:induction false} TargetIsTheMatch(ps: seq<Product>, productId: string, siteId: string)
    requires UniqueIds(ps)
    ensures Target(ps, productId, siteId).Some? <==>
              exists k :: 0 <= k < |ps| && IsTarget(ps[k], productId, siteId)
    ensures forall k :: 0 <= k < |ps| && IsTarget(ps[k], productId, siteId) ==>
              Target(ps, productId, siteId) == Some(ps[k])
  {
    forall k | 0 <= k < |ps| && IsTarget(ps[k], productId, siteId)
      ensures Target(ps, productId, siteId) == Some(ps[k])
    {
      FindUnique(ps, k);
    }
    if Target(ps, productId, siteId).Some? {
      var p := Find(ps, productId).value;
      var k :| 0 <= k < |ps| && ps[k] == p;
      assert IsTarget(ps[k], productId, siteId);
    }
  }

  /** The log entry of a stock movement: signed change, movement tag, origin site, responsible 'Admin'. */
  function MovementLog(p: Product, direction: Direction, amount: int, siteId: string,
                       logId: string, now: string): (l: Log)
    ensures l.logType == Movement(direction) && l.productId == p.id && l.productName == p.name
    ensures l.changeAmount == SignedChange(direction, amount)
    ensures l.finalStock == p.currentStock + SignedChange(direction, amount)
    ensures l.fromSiteId == Some(siteId) && l.responsible == Some("Admin")
    ensures l.id == logId && l.date == now && l.reason == None
  {
    ActionLog(p, SignedChange(direction, amount), Movement(direction),
              LogOptions(Some(siteId), Some("Admin")), logId, now)
  }

  /**
   * The logged final stock is the unclamped sum, the stored stock the clamped
   * one: they differ exactly when the movement would take the stock below zero.
   */
  lemma LoggedVersusStored(p: Product, direction: Direction, amount: int, siteId: string,
                           logId: string, now: string)
    ensures var change := SignedChange(direction, amount);
            var stored := Restocked(p, change, now).currentStock;
            var logged := MovementLog(p, direction, amount, siteId, logId, now).finalStock;
            stored == Max(0, logged) && (stored != logged <==> logged < 0)
  {
  }

  /** The products other than `id`, in their original order (`prev.filter(p => p.id !== id)`). */
  function Without(ps: seq<Product>, id: string): (r: seq<Product>)
    ensures forall p :: p in r <==> p in ps && p.id != id
  {
    var keep := (p: Product) => p.id != id;
    Lists.FilterMembers(ps, keep);
    Lists.Filter(ps, keep)
  }

  /** Keeping only some products keeps the ids unique. */
  lemma {:induction false} FilterKeepsUnique(ps: seq<Product>, keep: Product -> bool)
    requires UniqueIds(ps)
    ensures UniqueIds(Lists.Filter(ps, keep))
    decreases |ps|
  {
    if |ps| > 0 {
      var tail := ps[1..];
      assert UniqueIds(tail) by {
        forall i, j | 0 <= i < j < |tail| ensures tail[i].id != tail[j].id {
          assert ps[i + 1].id != ps[j + 1].id;
        }
      }
      FilterKeepsUnique(tail, keep);
      var rest := Lists.Filter(tail, keep);
      Lists.FilterMembers(tail, keep);
      forall q | q in rest ensures q.id != ps[0].id {
        var j :| 0 <= j < |tail| && tail[j] == q;
        assert ps[j + 1] == q;
      }
      if keep(ps[0]) {
        var r := [ps[0]] + rest;
        forall i, j | 0 <= i < j < |r| ensures r[i].id != r[j].id {
          if i == 0 {
            assert r[j] in rest;
          } else {
            assert r[i] == rest[i - 1] && r[j] == rest[j - 1];
          }
        }
      } else {
        assert Lists.Filter(ps, keep) == rest;
      }
    }
  }

  /** Deleting an id no product has changes nothing. */
  lemma {:induction false} WithoutAbsent(ps: seq<Product>, id: string)
    requires Fresh(ps, id)
    ensures Without(ps, id) == ps
  {
    Lists.FilterKeepsAll(ps, (p: Product) => p.id != id);
  }

  /** Deleting the id of one product of a store with unique ids removes exactly that one, at its place. */
  lemma {:induction false} WithoutPresent(ps: seq<Product>, k: nat)
    requires UniqueIds(ps) && k < |ps|
    ensures Without(ps, ps[k].id) == ps[..k] + ps[k + 1..]
    ensures |Without(ps, ps[k].id)| == |ps| - 1
  {
    var id := ps[k].id;
    var keep := (p: Product) => p.id != id;
    var front, back := ps[..k], ps[k + 1..];
    forall i | 0 <= i < |front| ensures keep(front[i]) {
      assert front[i] == ps[i];
    }
    forall i | 0 <= i < |back| ensures keep(back[i]) {
      assert back[i] == ps[k + 1 + i];
    }
    assert ps == front + [ps[k]] + back;
    Lists.FilterDropsOne(front, ps[k], back, keep);
  }

  /** Rewriting products in place without touching their ids keeps the ids unique. */
  lemma SameIdsUnique(ps: seq<Product>, rows: seq<Product>)
    requires UniqueIds(ps) && |rows| == |ps|
    requires forall k :: 0 <= k < |ps| ==> rows[k].id == ps[k].id
    ensures UniqueIds(rows)
  {
    forall i, j | 0 <= i < j < |rows| ensures rows[i].id != rows[j].id {
      assert rows[i].id == ps[i].id && rows[j].id == ps[j].id;
    }
  }

  class Store {
    /** The live product list, in display order. */
    var products: seq<Product>
    /** The audit history, newest entry first. */
    var history: seq<Log>

    ghost predicate Valid()
      reads this
    {
      UniqueIds(products)
    }

    /** A store loaded from saved lists. */
    constructor (products: seq<Product>, history: seq<Log>)
      requires UniqueIds(products)
      ensures Valid() && this.products == products && this.history == history
    {
      this.products := products;
      this.history := history;
    }

    /** The store when nothing is saved: the seed products and an empty history. */
    constructor Seeded(now: string)
      ensures Valid() && products == InitialProducts(now) && history == []
    {
      products := InitialProducts(now);
      history := [];
    }

    /**
     * Puts one log entry at the front of the history for the first product
     * with `productId`, recording its current name and `stock + amount`; does
     * nothing when no product has that id.
     */
    method LogAction(productId: string, amount: int, logType: LogType, options: LogOptions,
                     logId: string, now: string)
      modifies this`history
      ensures history == match Find(products, productId)
                         case Some(p) => [ActionLog(p, amount, logType, options, logId, now)] + old(history)
                         case None => old(history)
    {
      var found := Find(products, productId);
      if found.None? {
        return;
      }
      var p := found.value;
      history := [ActionLog(p, amount, logType, options, logId, now)] + history;
    }

    /**
     * A stock entry or exit of `|amount|` on the product with `productId` at
     * `siteId`: its stock becomes `max(0, stock + change)` and its date `now`;
     * every other product is left as it was, in place; the history gains one
     * entry at the front, recording the unclamped final stock, exactly when a
     * product matched.
     */
    method StockUpdate(productId: string, amount: int, direction: Direction, siteId: string,
                       logId: string, now: string)
      requires Valid()
      modifies this
      ensures Valid()
      ensures |products| == |old(products)|
      ensures forall k :: 0 <= k < |products| ==>
                products[k] == if IsTarget(old(products)[k], productId, siteId)
                               then Restocked(old(products)[k], SignedChange(direction, amount), now)
                               else old(products)[k]
      ensures history == match Target(old(products), productId, siteId)
                         case Some(p) => [MovementLog(p, direction, amount, siteId, logId, now)] + old(history)
                         case None => old(history)
      ensures Target(old(products), productId, siteId).None? ==>
                products == old(products) && history == old(history)
      ensures old(NonNegativeStock(products)) ==> NonNegativeStock(products)
    {
      var change := SignedChange(direction, amount);
      var rows: seq<Product> := [];
      ghost var at := -1;
      var i := 0;
      while i < |products|
        invariant 0 <= i <= |products|
        invariant products == old(products)
        invariant |rows| == i
        invariant forall k :: 0 <= k < i ==>
                    rows[k] == if IsTarget(products[k], productId, siteId)
                               then Restocked(products[k], change, now) else products[k]
        invariant -1 <= at < i
        invariant at == -1 ==> history == old(history)
        invariant at == -1 ==> forall k :: 0 <= k < i ==> !IsTarget(products[k], productId, siteId)
        invariant at >= 0 ==> IsTarget(products[at], productId, siteId)
        invariant at >= 0 ==> history == [MovementLog(products[at], direction, amount, siteId, logId, now)] + old(history)
      {
        var p := products[i];
        if p.id == productId && p.siteId == Some(siteId) {
          assert at == -1;  // with unique ids, at most one product matches
          FindUnique(products, i);
          LogAction(p.id, change, Movement(direction), LogOptions(Some(siteId), Some("Admin")), logId, now);
          at := i;
          rows := rows + [Restocked(p, change, now)];
        } else {
          rows := rows + [p];
        }
        i := i + 1;
      }
      TargetIsTheMatch(products, productId, siteId);
      if at == -1 {
        assert rows == products;
      }
      assert forall k :: 0 <= k < |rows| ==> rows[k].id == products[k].id;
      SameIdsUnique(products, rows);
      products := rows;
    }

    /** Deletes every product with this id once the user confirms; the history is never touched. */
    method Delete(id: string, confirmed: bool)
      requires Valid()
      modifies this`products
      ensures Valid()
      ensures products == if confirmed then Without(old(products), id) else old(products)
      ensures history == old(history)
      ensures old(NonNegativeStock(products)) ==> NonNegativeStock(products)
    {
      if confirmed {
        FilterKeepsUnique(products, (p: Product) => p.id != id);
        products := Without(products, id);
      }
    }

    /**
     * The product form's save. Editing overlays the form on the product with
     * the edited id and on no other; creating appends one product with a new
     * id, the date `now` and the form's stock or 0. The form's name is
     * required by the page before it submits.
     */
    method Save(editingId: Option<string>, form: ProductForm, newId: string, now: string)
      requires Valid()
      requires form.name.Some? && form.name.value != ""
      requires editingId.None? ==> Fresh(products, newId)
      modifies this`products
      ensures Valid()
      ensures history == old(history)
      ensures editingId.Some? ==>
                |products| == |old(products)| &&
                forall k :: 0 <= k < |products| ==>
                  products[k] == if old(products)[k].id == editingId.value
                                 then Overlay(old(products)[k], form) else old(products)[k]
      ensures editingId.None? ==> products == old(products) + [NewProduct(form, newId, now)]
      ensures (old(NonNegativeStock(products)) && (form.currentStock.None? || form.currentStock.value >= 0))
              ==> NonNegativeStock(products)
    {
      if editingId.Some? {
        var id, ps := editingId.value, products;
        var edited := seq(|ps|, k requires 0 <= k < |ps| =>
                            if ps[k].id == id then Overlay(ps[k], form) else ps[k]);
        assert forall k :: 0 <= k < |ps| ==> edited[k].id == ps[k].id;
        products := edited;
      } else {
        products := products + [NewProduct(form, newId, now)];
      }
    }
  }
}

=== FILE: table.dfy ===
/**
 * The inventory table and the dashboard alert counter: the search, site and
 * category filters, the single-key comparator and its sort, the sort
 * buttons' toggle rule, and the alert count.
 */
module Table {
  import opened Wrappers
  import opened Model
  import Text
  import Lists

  datatype SortKey = Name | Stock | Price | Category
  datatype SortOrder = Asc | Desc
  datatype SortConfig = SortConfig(key: SortKey, order: SortOrder)

  /** The table's filter controls: search box, site select, category select. */
  datatype Query = Query(searchTerm: string, siteFilter: string, categoryFilter: string)

  /** The controls as the screen opens: empty search, all sites, all categories. */
  const DefaultQuery := Query("", "all", "Toutes")
  const DefaultSort := SortConfig(Name, Asc)

  predicate MatchesSearch(p: Product, term: string) {
    Text.Contains(Text.Lower(p.name), Text.Lower(term))
  }

  predicate MatchesSite(p: Product, siteFilter: string) {
    siteFilter == "all" || p.siteId == Some(siteFilter)
  }

  predicate MatchesCategory(p: Product, categoryFilter: string) {
    categoryFilter == "Toutes" || p.category == Some(categoryFilter)
  }

  predicate Visible(p: Product, q: Query) {
    MatchesSearch(p, q.searchTerm) && MatchesSite(p, q.siteFilter) && MatchesCategory(p, q.categoryFilter)
  }

  /** The products the table shows, in store order, before sorting. */
  function Filtered(ps: seq<Product>, q: Query): (r: seq<Product>)
    ensures forall p :: p in r <==> p in ps && Visible(p, q)
  {
    var keep := (p: Product) => Visible(p, q);
    Lists.FilterMembers(ps, keep);
    Lists.Filter(ps, keep)
  }

  /** With the controls as the screen opens, every product is shown. */
  lemma {:induction false} DefaultQueryShowsAll(ps: seq<Product>)
    ensures Filtered(ps, DefaultQuery) == ps
  {
    assert Text.Lower("") == "";
    forall i | 0 <= i < |ps| ensures Visible(ps[i], DefaultQuery) {
      Text.ContainsEmpty(Text.Lower(ps[i].name));
    }
    Lists.FilterKeepsAll(ps, (p: Product) => Visible(p, DefaultQuery));
  }

  /** The search ignores ASCII case: searching for the lower-cased term shows the same products. */
  lemma {:induction false} SearchIgnoresCase(p: Product, q: Query)
    ensures Visible(p, q.(searchTerm := Text.Lower(q.searchTerm))) == Visible(p, q)
    ensures Visible(p.(name := Text.Lower(p.name)), q) == Visible(p, q)
  {
    Text.LowerIdempotent(q.searchTerm);
    Text.LowerIdempotent(p.name);
  }

  /** Applying the three filters one after another, in either order, gives the table's filter. */
  lemma {:induction false} FilterOrderIrrelevant(ps: seq<Product>, q: Query)
    ensures Lists.Filter(Lists.Filter(Lists.Filter(ps,
              (p: Product) => MatchesSite(p, q.siteFilter)),
              (p: Product) => MatchesCategory(p, q.categoryFilter)),
              (p: Product) => MatchesSearch(p, q.searchTerm)) == Filtered(ps, q)
    ensures Lists.Filter(Lists.Filter(Lists.Filter(ps,
              (p: Product) => MatchesSearch(p, q.searchTerm)),
              (p: Product) => MatchesCategory(p, q.categoryFilter)),
              (p: Product) => MatchesSite(p, q.siteFilter)) == Filtered(ps, q)
  {
    var site := (p: Product) => MatchesSite(p, q.siteFilter);
    var cat := (p: Product) => MatchesCategory(p, q.categoryFilter);
    var search := (p: Product) => MatchesSearch(p, q.searchTerm);
    var siteCat := (p: Product) => MatchesSite(p, q.siteFilter) && MatchesCategory(p, q.categoryFilter);
    var searchCat := (p: Product) => MatchesSearch(p, q.searchTerm) && MatchesCategory(p, q.categoryFilter);
    var all := (p: Product) => Visible(p, q);
    Lists.FilterFilter(ps, site, cat, siteCat);
    Lists.FilterFilter(ps, siteCat, search, all);
    Lists.FilterFilter(ps, search, cat, searchCat);
    Lists.FilterFilter(ps, searchCat, site, all);
  }

  /** The value a column sorts by; a missing price or category is `undefined`. */
  datatype SortValue = Str(s: string) | Num(n: int) | Undefined

  function KeyOf(p: Product, key: SortKey): SortValue {
    match key
    case Name => Str(p.name)
    case Stock => Num(p.currentStock)
    case Price => if p.unitPrice.Some? then Num(p.unitPrice.value) else Undefined
    case Category => if p.category.Some? then Str(p.category.value) else Undefined
  }

  /** JavaScript `<` on two sort values: any comparison involving `undefined` is false. */
  predicate Below(a: SortValue, b: SortValue) {
    match (a, b)
    case (Str(x), Str(y)) => Text.Less(x, y)
    case (Num(x), Num(y)) => x < y
    case _ => false
  }

  lemma BelowTransitive(a: SortValue, b: SortValue, c: SortValue)
    requires Below(a, b) && Below(b, c)
    ensures Below(a, c)
  {
    if a.Str? {
      Text.LessTransitive(a.s, b.s, c.s);
    }
  }

  lemma BelowAsymmetric(a: SortValue, b: SortValue)
    requires Below(a, b)
    ensures !Below(b, a)
  {
    if a.Str? {
      Text.LessAsymmetric(a.s, b.s);
    }
  }

  /** The table's comparator: negative puts `a` first, positive puts `b` first, zero is a tie. */
  function Compare(a: Product, b: Product, cfg: SortConfig): int {
    var va, vb := KeyOf(a, cfg.key), KeyOf(b, cfg.key);
    if Below(va, vb) then (if cfg.order == Asc then -1 else 1)
    else if Below(vb, va) then (if cfg.order == Asc then 1 else -1)
    else 0
  }

  /**
   * The comparator is antisymmetric, and it breaks no ties: two products with
   * the same key value compare equal whatever their other fields.
   */
  lemma CompareAntisymmetric(a: Product, b: Product, cfg: SortConfig)
    ensures Compare(a, b, cfg) == -Compare(b, a, cfg)
    ensures KeyOf(a, cfg.key) == KeyOf(b, cfg.key) ==> Compare(a, b, cfg) == 0
  {
    var va, vb := KeyOf(a, cfg.key), KeyOf(b, cfg.key);
    if Below(va, vb) {
      BelowAsymmetric(va, vb);
    }
    if va == vb && va.Str? {
      Text.LessIrreflexive(va.s);
    }
  }

  /** Descending order is ascending order reversed, row pair by row pair. */
  lemma CompareDescending(a: Product, b: Product, key: SortKey)
    ensures Compare(a, b, SortConfig(key, Desc)) == -Compare(a, b, SortConfig(key, Asc))
  {
  }

  /**
   * A product without a price or category compares equal to every product on
   * that key, so the comparator is not a consistent order once such a product
   * is listed, and the sorted order is then up to the sort implementation.
   */
  lemma MissingKeyTiesWithAll(a: Product, b: Product, cfg: SortConfig)
    requires KeyOf(a, cfg.key) == Undefined
    ensures Compare(a, b, cfg) == 0 && Compare(b, a, cfg) == 0
  {
  }

  /** A present key value: every name and stock, a price or category only when set. */
  predicate Defined(s: seq<Product>, key: SortKey) {
    forall i :: 0 <= i < |s| ==> KeyOf(s[i], key) != Undefined
  }

  /** `a` sorts no later than `b`: the same value, or JavaScript-smaller. */
  predicate AtMost(a: SortValue, b: SortValue) {
    a == b || Below(a, b)
  }

  /** `a` may precede `b` in a table sorted by `cfg`: key not greater for ascending, not smaller for descending. */
  predicate Before(a: Product, b: Product, cfg: SortConfig) {
    if cfg.order == Asc then AtMost(KeyOf(a, cfg.key), KeyOf(b, cfg.key))
    else AtMost(KeyOf(b, cfg.key), KeyOf(a, cfg.key))
  }

  /** Non-decreasing by the key for ascending order, non-increasing for descending. */
  predicate Ordered(s: seq<Product>, cfg: SortConfig) {
    forall i, j :: 0 <= i < j < |s| ==> Before(s[i], s[j], cfg)
  }

  lemma BeforeTransitive(a: Product, b: Product, c: Product, cfg: SortConfig)
    requires Before(a, b, cfg) && Before(b, c, cfg)
    ensures Before(a, c, cfg)
  {
    var va, vb, vc := KeyOf(a, cfg.key), KeyOf(b, cfg.key), KeyOf(c, cfg.key);
    if Below(va, vb) && Below(vb, vc) {
      BelowTransitive(va, vb, vc);
    }
    if Below(vc, vb) && Below(vb, va) {
      BelowTransitive(vc, vb, va);
    }
  }

  /** On present keys the comparator's verdict is an order: `<= 0` means `a` may come first, `> 0` that `b` may. */
  lemma CompareDecides(a: Product, b: Product, cfg: SortConfig)
    requires KeyOf(a, cfg.key) != Undefined && KeyOf(b, cfg.key) != Undefined
    ensures Compare(a, b, cfg) <= 0 ==> Before(a, b, cfg)
    ensures Compare(a, b, cfg) > 0 ==> Before(b, a, cfg)
  {
    var va, vb := KeyOf(a, cfg.key), KeyOf(b, cfg.key);
    if va != vb && va.Str? {
      assert vb.Str?;
      Text.LessTotal(va.s, vb.s);
    }
  }

  /** Inserts `x` before the first element it does not sort after. */
  function Insert(x: Product, t: seq<Product>, cfg: SortConfig): (r: seq<Product>)
    ensures |r| == |t| + 1
    ensures multiset(r) == multiset(t) + multiset{x}
    decreases |t|
  {
    if |t| == 0 then [x]
    else if Compare(x, t[0], cfg) <= 0 then [x] + t
    else
      assert t == [t[0]] + t[1..];
      [t[0]] + Insert(x, t[1..], cfg)
  }

  /**
   * `Array.prototype.sort` with the table's comparator, as a stable insertion
   * sort: with a consistent comparator every stable sort gives this result.
   */
  function SortRows(s: seq<Product>, cfg: SortConfig): (r: seq<Product>)
    ensures |r| == |s|
    ensures multiset(r) == multiset(s)
    decreases |s|
  {
    if |s| == 0 then []
    else
      assert s == [s[0]] + s[1..];
      Insert(s[0], SortRows(s[1..], cfg), cfg)
  }

  /** The rows the table displays: the visible products, sorted. */
  function Rows(ps: seq<Product>, q: Query, cfg: SortConfig): (r: seq<Product>)
    ensures multiset(r) == multiset(Filtered(ps, q))
    ensures forall p :: p in r <==> p in ps && Visible(p, q)
  {
    var r := SortRows(Filtered(ps, q), cfg);
    assert forall p :: p in r <==> p in multiset(r);
    r
  }

  /** Dropping the first row of an ordered table leaves it ordered. */
  lemma TailOrdered(t: seq<Product>, cfg: SortConfig)
    requires |t| > 0 && Ordered(t, cfg)
    ensures Ordered(t[1..], cfg)
  {
    var tail := t[1..];
    forall i, j | 0 <= i < j < |tail| ensures Before(tail[i], tail[j], cfg) {
      assert tail[i] == t[i + 1] && tail[j] == t[j + 1];
    }
  }

  /** A row that may precede every row of an ordered table can be put in front of it. */
  lemma ConsOrdered(h: Product, rest: seq<Product>, cfg: SortConfig)
    requires Ordered(rest, cfg)
    requires forall y :: y in rest ==> Before(h, y, cfg)
    ensures Ordered([h] + rest, cfg)
  {
    var r := [h] + rest;
    forall i, j | 0 <= i < j < |r| ensures Before(r[i], r[j], cfg) {
      if i == 0 {
        assert r[j] == rest[j - 1];
      } else {
        assert r[i] == rest[i - 1] && r[j] == rest[j - 1];
      }
    }
  }

  lemma {:induction false} InsertOrdered(x: Product, t: seq<Product>, cfg: SortConfig)
    requires Ordered(t, cfg) && Defined(t, cfg.key) && KeyOf(x, cfg.key) != Undefined
    ensures Ordered(Insert(x, t, cfg), cfg)
    decreases |t|
  {
    if |t| == 0 {
      assert Insert(x, t, cfg) == [x];
    } else if Compare(x, t[0], cfg) <= 0 {
      CompareDecides(x, t[0], cfg);
      forall y | y in t ensures Before(x, y, cfg) {
        var j :| 0 <= j < |t| && t[j] == y;
        if j > 0 {
          BeforeTransitive(x, t[0], y, cfg);
        }
      }
      ConsOrdered(x, t, cfg);
    } else {
      CompareDecides(x, t[0], cfg);
      var tail := t[1..];
      TailOrdered(t, cfg);
      assert Defined(tail, cfg.key) by {
        forall i | 0 <= i < |tail| ensures KeyOf(tail[i], cfg.key) != Undefined {
          assert tail[i] == t[i + 1];
        }
      }
      InsertOrdered(x, tail, cfg);
      var rest := Insert(x, tail, cfg);
      forall y | y in rest ensures Before(t[0], y, cfg) {
        assert y in multiset(rest);
        if y != x {
          assert y in multiset(tail);
          var j :| 0 <= j < |tail| && tail[j] == y;
          assert t[j + 1] == y;
        }
      }
      ConsOrdered(t[0], rest, cfg);
    }
  }

  /** When every key is present the sorted rows are in order. */
  lemma {:induction false} SortRowsOrdered(s: seq<Product>, cfg: SortConfig)
    requires Defined(s, cfg.key)
    ensures Ordered(SortRows(s, cfg), cfg)
    decreases |s|
  {
    if |s| > 0 {
      var sorted := SortRows(s[1..], cfg);
      SortRowsOrdered(s[1..], cfg);
      forall i | 0 <= i < |sorted| ensures KeyOf(sorted[i], cfg.key) != Undefined {
        assert sorted[i] in multiset(s[1..]);
      }
      InsertOrdered(s[0], sorted, cfg);
    }
  }

  /** Names and stock levels are always present, so sorting by them always orders the table. */
  lemma {:induction false} RowsOrdered(ps: seq<Product>, q: Query, cfg: SortConfig)
    requires cfg.key == Name || cfg.key == Stock || Defined(Filtered(ps, q), cfg.key)
    ensures Ordered(Rows(ps, q, cfg), cfg)
  {
    SortRowsOrdered(Filtered(ps, q), cfg);
  }

  /** The table as the screen opens: every product, in ascending order of name. */
  lemma {:induction false} OpeningTable(ps: seq<Product>)
    ensures Rows(ps, DefaultQuery, DefaultSort) == SortRows(ps, DefaultSort)
    ensures Ordered(Rows(ps, DefaultQuery, DefaultSort), DefaultSort)
    ensures multiset(Rows(ps, DefaultQuery, DefaultSort)) == multiset(ps)
  {
    DefaultQueryShowsAll(ps);
    RowsOrdered(ps, DefaultQuery, DefaultSort);
  }

  /** Sorting by stock, ascending: stock never decreases down the table; descending: never increases. */
  lemma {:induction false} RowsByStock(ps: seq<Product>, q: Query, order: SortOrder)
    ensures var r := Rows(ps, q, SortConfig(Stock, order));
            forall i, j :: 0 <= i < j < |r| ==>
              if order == Asc then r[i].currentStock <= r[j].currentStock
              else r[i].currentStock >= r[j].currentStock
  {
    RowsOrdered(ps, q, SortConfig(Stock, order));
  }

  /** The sort buttons: the same key already ascending flips to descending, anything else sorts ascending. */
  function NextSort(cfg: SortConfig, key: SortKey): (r: SortConfig)
    ensures r.key == key
  {
    SortConfig(key, if cfg.key == key && cfg.order == Asc then Desc else Asc)
  }

  /** Clicking the active key's button twice restores the order; a new key always starts ascending. */
  lemma ToggleRule(cfg: SortConfig, key: SortKey)
    ensures NextSort(NextSort(cfg, cfg.key), cfg.key) == cfg
    ensures NextSort(cfg, cfg.key) != cfg
    ensures key != cfg.key ==> NextSort(cfg, key) == SortConfig(key, Asc)
  {
  }

  /** The dashboard's alert counter. */
  function AlertCount(ps: seq<Product>): (n: nat)
    ensures n <= |ps|
    ensures n == 0 <==> forall i :: 0 <= i < |ps| ==> !InAlert(ps[i])
    ensures n == AlertsAmong(ps)
  {
    FilterCountsAlerts(ps);
    var alerts := Lists.Filter(ps, InAlert);
    Lists.FilterMembers(ps, InAlert);
    assert alerts != [] ==> alerts[0] in alerts;
    assert forall i :: 0 <= i < |ps| && InAlert(ps[i]) ==> ps[i] in alerts;
    |alerts|
  }

  /** The number of products in alert, counted one product at a time. */
  function AlertsAmong(ps: seq<Product>): nat
    decreases |ps|
  {
    if |ps| == 0 then 0 else (if InAlert(ps[0]) then 1 else 0) + AlertsAmong(ps[1..])
  }

  /** Filtering on the alert test keeps one product per alert. */
  lemma {:induction false} FilterCountsAlerts(ps: seq<Product>)
    ensures |Lists.Filter(ps, InAlert)| == AlertsAmong(ps)
    decreases |ps|
  {
    if |ps| > 0 {
      FilterCountsAlerts(ps[1..]);
    }
  }

  /** How many alerts a one-element list holds. */
  lemma SingletonAlerts(x: Product)
    ensures |Lists.Filter([x], InAlert)| == if InAlert(x) then 1 else 0
  {
    assert [x][1..] == [];
  }

  lemma {:induction false} InsertKeepsAlertCount(x: Product, t: seq<Product>, cfg: SortConfig)
    ensures |Lists.Filter(Insert(x, t, cfg), InAlert)|
            == |Lists.Filter(t, InAlert)| + (if InAlert(x) then 1 else 0)
    decreases |t|
  {
    SingletonAlerts(x);
    if |t| == 0 {
      assert Insert(x, t, cfg) == [x];
    } else if Compare(x, t[0], cfg) <= 0 {
      assert Insert(x, t, cfg) == [x] + t;
      Lists.FilterAppend([x], t, InAlert);
    } else {
      var rest := Insert(x, t[1..], cfg);
      assert Insert(x, t, cfg) == [t[0]] + rest;
      InsertKeepsAlertCount(x, t[1..], cfg);
      Lists.FilterAppend([t[0]], rest, InAlert);
      Lists.FilterAppend([t[0]], t[1..], InAlert);
      assert t == [t[0]] + t[1..];
    }
  }

  lemma {:induction false} SortKeepsAlertCount(s: seq<Product>, cfg: SortConfig)
    ensures |Lists.Filter(SortRows(s, cfg), InAlert)| == |Lists.Filter(s, InAlert)|
    decreases |s|
  {
    if |s| > 0 {
      SortKeepsAlertCount(s[1..], cfg);
      InsertKeepsAlertCount(s[0], SortRows(s[1..], cfg), cfg);
      Lists.FilterAppend([s[0]], s[1..], InAlert);
      SingletonAlerts(s[0]);
      assert s == [s[0]] + s[1..];
    }
  }

  /**
   * The dashboard counter and the table badges use one test: with the
   * screen's default filters, the counter equals the number of rows the table
   * badges as alerts, whatever the sort.
   */
  lemma {:induction false} DashboardMatchesTable(ps: seq<Product>, cfg: SortConfig)
    ensures AlertCount(ps) == AlertCount(Rows(ps, DefaultQuery, cfg))
  {
    DefaultQueryShowsAll(ps);
    SortKeepsAlertCount(ps, cfg);
  }
}

=== FILE: text.dfy ===
/**
 * The string operations the inventory screen relies on: ASCII lower-casing
 * (`toLowerCase`), substring search (`includes`), JavaScript's `<` on strings,
 * and `join` / `split` on one separator.
 */
module Text {

  /** Lower-cases one ASCII letter and leaves every other character alone. */
  function LowerChar(c: char): (r: char)
    ensures !('A' <= r <= 'Z')
    ensures 'a' <= r <= 'z' ==> r == c || r as int == c as int + 32
  {
    if 'A' <= c <= 'Z' then (c as int + 32) as char else c
  }

  /** `toLowerCase` on ASCII text: each capital becomes its small letter, every other character stays. */
  function Lower(s: string): (r: string)
    ensures |r| == |s|
    ensures forall i :: 0 <= i < |r| ==> !('A' <= r[i] <= 'Z')
    ensures forall i :: 0 <= i < |s| && !('A' <= s[i] <= 'Z') ==> r[i] == s[i]
    ensures forall i :: 0 <= i < |s| && 'A' <= s[i] <= 'Z' ==> r[i] as int == s[i] as int + 32
  {
    seq(|s|, i requires 0 <= i < |s| => LowerChar(s[i]))
  }

  /** Lower-casing twice is lower-casing once. */
  lemma {:induction false} LowerIdempotent(s: string)
    ensures Lower(Lower(s)) == Lower(s)
  {
    assert forall i :: 0 <= i < |s| ==> LowerChar(LowerChar(s[i])) == LowerChar(s[i]);
  }

  predicate StartsWith(s: string, t: string) {
    |t| <= |s| && s[..|t|] == t
  }

  /** `s.includes(t)`: `t` occurs somewhere in `s` (the empty string occurs everywhere). */
  predicate Contains(s: string, t: string)
    decreases |s|
  {
    StartsWith(s, t) || (|s| > 0 && Contains(s[1..], t))
  }

  /** `t` occurs in `s` starting at position `i`. */
  predicate OccursAt(s: string, t: string, i: int) {
    0 <= i <= |s| - |t| && s[i..i + |t|] == t
  }

  /** `Contains` finds exactly the positions at which `t` occurs. */
  lemma {:induction false} ContainsAt(s: string, t: string)
    ensures Contains(s, t) <==> exists i :: OccursAt(s, t, i)
    decreases |s|
  {
    if StartsWith(s, t) {
      assert OccursAt(s, t, 0);
    } else if |s| == 0 {
      assert |t| > 0;
    } else {
      ContainsAt(s[1..], t);
      if exists i :: OccursAt(s, t, i) {
        var i :| OccursAt(s, t, i);
        assert i != 0;
        assert s[1..][i - 1..i - 1 + |t|] == t;
        assert OccursAt(s[1..], t, i - 1);
      }
      if Contains(s[1..], t) {
        var i :| OccursAt(s[1..], t, i);
        assert s[i + 1..i + 1 + |t|] == t;
        assert OccursAt(s, t, i + 1);
      }
    }
  }

  /** Every string includes the empty search term. */
  lemma {:induction false} ContainsEmpty(s: string)
    ensures Contains(s, "")
  {
  }

  /** JavaScript `<` on two strings: lexicographic, a proper prefix first. */
  predicate Less(a: string, b: string)
    decreases |a|
  {
    if |a| == 0 then |b| > 0
    else if |b| == 0 then false
    else if a[0] != b[0] then a[0] < b[0]
    else Less(a[1..], b[1..])
  }

  lemma {:induction false} LessIrreflexive(a: string)
    ensures !Less(a, a)
    decreases |a|
  {
    if |a| > 0 {
      LessIrreflexive(a[1..]);
    }
  }

  lemma {:induction false} LessTransitive(a: string, b: string, c: string)
    requires Less(a, b) && Less(b, c)
    ensures Less(a, c)
    decreases |a|
  {
    if |a| > 0 && a[0] == b[0] && b[0] == c[0] {
      LessTransitive(a[1..], b[1..], c[1..]);
    }
  }

  /** Two different strings are always ordered one way or the other. */
  lemma {:induction false} LessTotal(a: string, b: string)
    requires a != b
    ensures Less(a, b) || Less(b, a)
    decreases |a|
  {
    if |a| > 0 && |b| > 0 && a[0] == b[0] {
      assert a == [a[0]] + a[1..] && b == [b[0]] + b[1..];
      LessTotal(a[1..], b[1..]);
    }
  }

  lemma {:induction false} LessAsymmetric(a: string, b: string)
    requires Less(a, b)
    ensures !Less(b, a)
    decreases |a|
  {
    if |a| > 0 && a[0] == b[0] {
      LessAsymmetric(a[1..], b[1..]);
    }
  }

  /** `xs.join(sep)`. */
  function Join(xs: seq<string>, sep: string): string
    decreases |xs|
  {
    if |xs| == 0 then ""
    else if |xs| == 1 then xs[0]
    else xs[0] + sep + Join(xs[1..], sep)
  }

  /** A character that is in none of the joined pieces nor in the separator is not in the result. */
  lemma {:induction false} JoinAvoids(xs: seq<string>, sep: string, c: char)
    requires forall i :: 0 <= i < |xs| ==> c !in xs[i]
    requires c !in sep
    ensures c !in Join(xs, sep)
    decreases |xs|
  {
    if |xs| > 1 {
      JoinAvoids(xs[1..], sep, c);
    }
  }

  /** `s.split(c)` for a one-character separator; the result is never empty. */
  function Split(s: string, c: char): (r: seq<string>)
    ensures |r| >= 1
    decreases |s|
  {
    if |s| == 0 then [""]
    else if s[0] == c then [""] + Split(s[1..], c)
    else
      var rest := Split(s[1..], c);
      [[s[0]] + rest[0]] + rest[1..]
  }

  /** A leading piece free of the separator glues onto the first piece of what follows. */
  lemma {:induction false} SplitPrefix(a: string, b: string, c: char)
    requires c !in a
    ensures Split(a + b, c) == [a + Split(b, c)[0]] + Split(b, c)[1..]
    decreases |a|
  {
    var parts := Split(b, c);
    if |a| == 0 {
      assert a + b == b;
      assert a + parts[0] == parts[0];
      assert parts == [parts[0]] + parts[1..];
    } else {
      assert (a + b)[1..] == a[1..] + b;
      SplitPrefix(a[1..], b, c);
      assert [a[0]] + (a[1..] + Split(b, c)[0]) == a + Split(b, c)[0];
    }
  }

  /** Splitting a join undoes it when no piece contains the separator. */
  lemma {:induction false} SplitJoin(xs: seq<string>, c: char)
    requires |xs| >= 1
    requires forall i :: 0 <= i < |xs| ==> c !in xs[i]
    ensures Split(Join(xs, [c]), c) == xs
    decreases |xs|
  {
    if |xs| == 1 {
      SplitPrefix(xs[0], "", c);
      assert xs[0] + "" == xs[0];
    } else {
      var rest := Join(xs[1..], [c]);
      assert Join(xs, [c]) == xs[0] + ([c] + rest);
      SplitPrefix(xs[0], [c] + rest, c);
      assert ([c] + rest)[1..] == rest;
      SplitJoin(xs[1..], c);
      assert xs[0] + "" == xs[0];
      assert xs == [xs[0]] + xs[1..];
    }
  }
}

=== FILE: wrappers.dfy ===
/** An optional value: a JavaScript property that may be `undefined`. */
module Wrappers {

  datatype Option<+T> = None | Some(value: T) {

    /** The value, or `default` when absent (JavaScript's `x || default` on a defined non-zero `x`). */
    function GetOr(default: T): T {
      match this
      case Some(v) => v
      case None => default
    }

    /** This value when present, otherwise `other` (the object spread `{...other, ...this}` on one key). */
    function Or(other: Option<T>): Option<T> {
      if Some? then this else other
    }
  }
}
